=== FILE: README.md ===
# pythonhtpc core, modelled in Dafny

pythonhtpc connects the pieces of a home-theatre PC. A plugin wires its callbacks
into the notifications of the remote services it talks to, and it calls those
services' methods. This project models the core of that design in four modules.

- `Core` (`pythonhtpc/core.py`) covers three classes:
  - `HTPCObject`: it publishes notification names, accepts subscriptions only to
    published names, and delivers a value to its subscribers in subscription order,
    up to and including the first callback that raises.
  - `RPCServer`: it keeps a list of callable methods, opens its channel in `start`,
    and passes only known methods to the concrete `_execute_method`.
  - `EventHandler`: it connects to a list of peers, refuses a peer name it already
    holds, subscribes its interest table for each peer's type, and counts the
    subscriptions that were accepted. Its `start` fails when no peer is connected or
    the stored count is zero.
- `Schema` (`process_schema` in `pythonhtpc/rpcs/xbmcrpc.py`) normalises the
  JSON-RPC schema a Kodi/XBMC server introspects:
  - parameter lists become name-keyed object schemas;
  - `JSONRPC.Version`'s `returns` gets a `version` envelope;
  - both screensaver notifications become aliases of `VideoLibrary.OnCleanStarted`'s
    entry. The aliasing is modelled on object identities, so the last description
    assignment wins for all three names.
- `XbmcRpc` (the rest of `pythonhtpc/rpcs/xbmcrpc.py`) models the client:
  - the method and notification catalogues filled from the processed schema;
  - the `_execute_method` decision chain: configuration, then channel, then
    transport, then the `returns` check;
  - the path a pushed notification takes, from `dispatch_notification` through
    `notification_callback` to the subscribers.
- `Cli` (`pythonhtpc/scripts/xbmc.py`) models the command-line helpers:
  - the log level chosen from `--loglevel`;
  - the grouping of `Namespace.Method` names into namespace attributes;
  - the wrappers that call the full name back.

Python subclassing becomes composition. An `RpcServer` and an `EventHandler` each
own the `HtpcObject` that holds their notification state, and `XbmcRpc` owns an
`RpcServer`. Two things outside the model are parameters: the transport
(`self._rpc.request`, which returns a reply or raises) and the schema validator
(`validictory.validate`, a predicate on a value and a schema).

## Model

| member | source | states |
|---|---|---|
| Core.HtpcObject.constructor | pythonhtpc/core.py:18-24 | a new object has its name, no published names and no subscriptions |
| Core.HtpcObject.AvailableNotifications | pythonhtpc/core.py:41-42 | the returned list holds exactly the published names, so it contains every name that has subscribers |
| Core.HtpcObject.AddNotificationSubscription | pythonhtpc/core.py:47-53 | an unpublished name gives None and no change; a published one gives the name back and appends the callback to the end of that name's list (creating it if needed); the invariant "only published names have entries, and no entry is empty" is kept |
| Core.HtpcObject.Notify | pythonhtpc/core.py:55-62 | delivery calls the subscribed callbacks in subscription order, each with (this object, value), up to and including the first call that raises; a name without subscribers calls nothing |
| Core.DeliveryReachesAllWithoutRaise | pythonhtpc/core.py:61-62 | when no call raises, every subscribed callback is called once per listing, in order |
| Core.RepeatedCallbackRaisesOnSecondCall | pythonhtpc/core.py:50-62 | a callback subscribed twice may succeed on its first call and raise on its second, and delivery then stops after that second call |
| Core.DeliveryStopsAtFirstRaise | pythonhtpc/core.py:61-62 | when call `k` is the first to raise, exactly the first `k + 1` callbacks are called |
| Core.AppendedKeepsOthers | pythonhtpc/core.py:50-52 | subscribing to one name leaves every other name's list unchanged and extends its own by exactly the new callback |
| Core.RpcServer.constructor | pythonhtpc/core.py:66-71 | a new server has no methods, no channel (`_rpc` is None) and an empty notifier |
| Core.RpcServer.Start | pythonhtpc/core.py:73-76 | start succeeds exactly when the channel opens, and the server is live afterwards if it was before or the channel opened |
| Core.RpcServer.AvailableMethods | pythonhtpc/core.py:90-91 | the returned list holds exactly the registered methods |
| Core.RpcServer.ExecuteMethod | pythonhtpc/core.py:97-104 | an unknown method gives None without reaching the concrete execution; a known one gives exactly what the concrete execution gives, with parameters that are missing or `None` (null) replaced by `{}` |
| Core.CountAccepted | pythonhtpc/core.py:137-141 | the count is at most the number of interest entries, and it is zero exactly when every entry names an unpublished notification or the empty (falsy) name |
| Core.SubscribeAllListeners | pythonhtpc/core.py:136-140 | wiring a peer appends to each published name's list exactly the callbacks the interest table gives for that name, in table order, and leaves unpublished names untouched |
| Core.SubscribeAllValid | pythonhtpc/core.py:138-140 | wiring a peer keeps the peer's subscription invariant |
| Core.EventHandler.ConnectToRpc | pythonhtpc/core.py:126-141 | an already connected name gives 0 and changes nothing; a new peer is recorded under its name, its table becomes the table with every entry for its type subscribed in order, and the returned count is the number of accepted entries with a truthy name |
| Core.EventHandler.constructor | pythonhtpc/core.py:115-124 | the connected names are exactly the given peers' names, each mapped to the first peer given under it; a peer that is the first under its name has its table wired with the handler's interests for its type, and every other peer keeps its table; the stored count is the one returned for the last peer (0 if that name repeats an earlier one); the handler's own table is empty and it publishes its list. Distinct peers are required to have distinct notification state, as each server owns its own |
| Core.EventHandler.ConnectAll | pythonhtpc/core.py:119-120 | connecting the peers in turn leaves exactly the reference table of connected peers, wires exactly the first peer under each name, and stores the last peer's count |
| Core.EventHandler.ConnectNext | pythonhtpc/core.py:119-120 | one turn of the loop extends the connected table and the wired tables from the first `i` peers to the first `i + 1`, and stores the count for peer `i` |
| Core.EventHandler.Offer | pythonhtpc/core.py:135-141 | offering the entries in turn subscribes exactly the published ones, in order, keeps the peer's invariant, and counts the accepted entries with a truthy name |
| Core.ConnectedAfterKeys | pythonhtpc/core.py:128-133 | after connecting a list of peers, the connected names are exactly their names |
| Core.ConnectedAfterKeepsFirst | pythonhtpc/core.py:128-133 | under a repeated name the first peer stays connected |
| Core.KeepsFirstStep | pythonhtpc/core.py:128-133 | connecting one more peer, recorded only when its name is new, keeps the first peer under every name |
| Core.WiredAmongMeaning | pythonhtpc/core.py:128-141 | a peer's table is wired exactly when it stands at an index that is the first under its name |
| Core.EventHandler.Start | pythonhtpc/core.py:143-146 | start fails exactly when no peer is connected or the stored count is 0 |
| Schema.ByNameSucceeds | pythonhtpc/rpcs/xbmcrpc.py:59 | the parameter map is built exactly when every element carries a string `name` |
| Schema.ByNameKeys | pythonhtpc/rpcs/xbmcrpc.py:59 | the map's keys are exactly the names the elements carry |
| Schema.ByNameLastWins | pythonhtpc/rpcs/xbmcrpc.py:59 | each name maps to the last element carrying it, with `name` removed |
| Schema.ByNameFailureSticks | pythonhtpc/rpcs/xbmcrpc.py:59 | once an element without a name is met, building the map fails however the list continues |
| Schema.CollectParams | pythonhtpc/rpcs/xbmcrpc.py:59 | the element-by-element loop computes the name-keyed parameter map (or fails) exactly as the reference definition does |
| Schema.ProcessedMethods | pythonhtpc/rpcs/xbmcrpc.py:57-63 | processing neither adds nor loses a method; each keeps its description, gets `{'type': 'object', 'properties': <name-keyed parameters>}` as params, and keeps its `returns` unless it is `JSONRPC.Version` |
| Schema.VersionReturnsWrapped | pythonhtpc/rpcs/xbmcrpc.py:65-67 | `JSONRPC.Version`'s `returns` becomes the object schema with a `version` property whose properties are the discovered ones |
| Schema.PatchedEntriesRequired | pythonhtpc/rpcs/xbmcrpc.py:65-70 | processing fails when `JSONRPC.Version` or `VideoLibrary.OnCleanStarted` is missing |
| Schema.ScreensaverEntriesShared | pythonhtpc/rpcs/xbmcrpc.py:68-71 | both screensaver names are added and, with `VideoLibrary.OnCleanStarted`, hold one entry whose description is the "deactivated" text; every other notification is unchanged |
| Schema.AliasScreensaver | pythonhtpc/rpcs/xbmcrpc.py:68-71 | the patch carried out on shared object identities gives exactly the aliased table of the reference definition |
| Schema.ProcessSchema | pythonhtpc/rpcs/xbmcrpc.py:55-73 | the imperative processing (method loop, Version patch, screensaver patch) gives exactly the processed schema of the reference definition, failing in the same cases |
| XbmcRpc.ExecuteWithConfig | pythonhtpc/rpcs/xbmcrpc.py:100-129 | an unconfigured method gives None with no request; a configured call sends exactly one request when the channel is up and none otherwise; a result is returned exactly when the transport replied and the reply passes the method's `returns` schema, and then it is that reply |
| XbmcRpc.XbmcRpc.constructor | pythonhtpc/rpcs/xbmcrpc.py:31-35 | the method list and the published list hold exactly the processed configuration keys, once each |
| XbmcRpc.AppendKeys | pythonhtpc/rpcs/xbmcrpc.py:32-35 | appending a configuration's keys in turn keeps the list's prefix and adds exactly those keys, one entry each |
| XbmcRpc.XbmcRpc.ExecuteMethod | pythonhtpc/rpcs/xbmcrpc.py:100-129 | through the server's method gate: an unknown method sends nothing, a known one sends one request when live (with `{}` for parameters that are missing or `None`); a result is returned exactly when the method is known, the channel is up, the transport replied and the reply passes the method's `returns` schema, and then it is that reply |
| XbmcRpc.XbmcRpc.NotificationCallback | pythonhtpc/rpcs/xbmcrpc.py:131-143 | the subscribers are called, in order and with the value, up to and including the first call that raises, exactly when the name has subscribers and the value passes the notification's `params` schema; every other case, including swallowed exceptions, calls nothing |
| XbmcRpc.XbmcRpc.DispatchNotification | pythonhtpc/rpcs/xbmcrpc.py:17-21 | `method` and `params` are popped (null when absent) and passed on as the name and the value, with delivery stopping at the first call that raises; the message keeps all its other keys |
| XbmcRpc.Discover | pythonhtpc/rpcs/xbmcrpc.py:27-35 | a client exists exactly when the schema can be processed, and it then holds the processed configurations with catalogues matching them |
| Cli.NoWarnWithoutW | pythonhtpc/scripts/xbmc.py:24 | no string without a `w` contains "warn", so the exact level names never reach the "warn" test |
| Cli.LogLevel | pythonhtpc/scripts/xbmc.py:20-32 | INFO, ERROR and CRITICAL exactly for the case-insensitive exact names; WARNING exactly when the lower-cased setting contains "warn"; DEBUG for "debug" and for everything else |
| Cli.LogLevelIgnoresCase | pythonhtpc/scripts/xbmc.py:20-29 | the level depends only on the lower-cased setting |
| Cli.SplitDotParts | pythonhtpc/scripts/xbmc.py:61 | a name splits exactly when it holds exactly one `.`, into two dot-free parts that rejoin to it |
| Cli.SplitJoin | pythonhtpc/scripts/xbmc.py:54 | the full name a wrapper calls splits back into its namespace and method |
| Cli.GroupByNamespace | pythonhtpc/scripts/xbmc.py:59-64 | the grouping loop computes exactly the reference grouping, failing on the first name that does not split |
| Cli.GroupedSucceeds | pythonhtpc/scripts/xbmc.py:59-64 | grouping succeeds exactly when every name splits |
| Cli.GroupedInOrder | pythonhtpc/scripts/xbmc.py:59-64 | each namespace's list is its methods in order of appearance, and a namespace is a key exactly when it has a method |
| Cli.MethodsOfMembers | pythonhtpc/scripts/xbmc.py:59-64 | a method is listed under a namespace exactly when some input name is `namespace.method` |
| Cli.GroupedEntries | pythonhtpc/scripts/xbmc.py:59-64 | the grouped table contains (namespace, method) exactly when some input name splits into them |
| Cli.NamespacesArePrefixes | pythonhtpc/scripts/xbmc.py:59-64 | every namespace key is the part before the `.` of some input name |
| Cli.GroupedTotal | pythonhtpc/scripts/xbmc.py:59-64 | the grouped lists together hold exactly as many entries as there are input names, duplicates included |
| Cli.ConfigureMethods | pythonhtpc/scripts/xbmc.py:49-57 | one wrapper per listed method, and each wrapper's full name splits back into the namespace and that method |
| Cli.Decorate | pythonhtpc/scripts/xbmc.py:42-67 | decoration succeeds exactly when every name splits; every input name is reachable as `namespace.method` and its wrapper calls that name; every wrapper calls an input name that splits back to its own namespace and attribute |

## Left out

- Threads: `notify` runs in a thread of its own (`@thread`). The model returns the calls that thread makes, in order. Interleaving with other threads is not modelled.
- Callbacks: what a callback does is outside the model. Whether a call raises is the predicate parameter `raises` over the position of the call within one delivery, so a callback listed twice may succeed once and raise the next time. A raise ends the delivery loop on `notify`'s thread.
- The network: the TCP JSON-RPC channel (`symmetricjsonrpc`), `_init_rpc`, `_run`, `stop` and `wait` are not modelled. Opening the channel is the `channelUp` argument of `Core.RpcServer.Start`, and a request is the `transport` function.
- The HTTP introspection request in `_discover` and the JSON decoding of its answer are left out. `XbmcRpc.Discover` takes the decoded document.
- The schema validator (`validictory.validate`) is the predicate parameter `valid`. Its rules are outside the model.
- JSON numbers are integers only. Floating point is not modelled.
- `Schema.PopName`: a `name` that is a number, a boolean or null fails the comprehension in the model. In the source it would become a non-string key of the parameter dictionary, which the model's `map<string, Value>` cannot hold. (An array or object `name` is unhashable, so the source's `dict` fails there too, as the model does.)
- `get_method_info`, `get_notification_info`, `__enter__`/`__exit__` and the info-printing helpers are not modelled. They only format or print configuration.
- The scheduling plugins (`CronJob` and the plugins under `pythonhtpc/plugins`) and `pythonhtpc/utils` are not part of this model.
- The interactive console, `argparse`, the logging handlers and the fallback message that `initialize_xbmc` prints are not modelled. Only the level choice is.
- `Cli.Decorate` takes the list of method names. It does not call the client's `get_available_methods`, which `XBMCRPC` never defines; the method that returns `_methods` is `available_methods`.
- `Cli.Decorate` and `Cli.ConfigureMethods` return the attribute tables instead of setting attributes, so a method part that clashes with an existing attribute is not modelled. In the source, an attribute named like a member of the client replaces that member. A method part named `_name`, `_parent`, `configure_methods` or a special attribute overwrites the `Namespace` object's own attribute. The wrappers read `_name` and `_parent` when they are called, not when they are made. So a `_name` method part makes every wrapper of that namespace, including those configured before it, call a full name built from the wrapper function instead of the namespace. A `_parent` method part makes `decorate_xbmc` raise only when a later method of the same namespace is configured, since `wraps` then reads `execute_method` from a function. When it comes last, decoration succeeds, and every call through that namespace raises `AttributeError`. A special attribute that `setattr` refuses (such as `__class__`) makes `decorate_xbmc` raise, and a `configure_methods` method part replaces that method. The model's promises that decoration succeeds and that each wrapper calls its own input name hold only for method parts that clash with none of these.
- In notifications, the sender is the `HtpcObject` part of the composed object, not the subclass instance.
- `EventHandler`'s class-level `_notifications_to_register` and `_notifications_to_publish` are constructor arguments held as constants. A subclass's tables are modelled, but not a change to them made while the program runs.
- Dictionary iteration order is an arbitrary choice over a set of keys (`:|`) in the loops over dictionaries. Where the source iterates over a dictionary of interests, the model uses the order of a sequence.
- Log messages are not modelled.

=== FILE: cli.dfy ===
/** The command-line helpers of pythonhtpc/scripts/xbmc.py: choosing the log level from
    the `--loglevel` string, and grouping the client's `"Namespace.Method"` names into
    per-namespace attributes whose wrappers call the full method name back. */
module Cli {
  import opened Optional

  datatype Level = Debug | Info | Warning | Error | Critical

  /** Python 2's `str.lower()` on one byte: only ASCII capitals change. */
  function LowerChar(c: char): char {
    if 'A' <= c <= 'Z' then (c as int + 32) as char else c
  }

  function Lower(s: string): string {
    seq(|s|, i requires 0 <= i < |s| => LowerChar(s[i]))
  }

  /** Python's substring test `part in s`. */
  predicate Contains(s: string, part: string) {
    exists i, j :: 0 <= i <= j <= |s| && s[i..j] == part
  }

  /** A string without a `w` does not contain "warn". */
  lemma NoWarnWithoutW(s: string)
    requires forall i :: 0 <= i < |s| ==> s[i] != 'w'
    ensures !Contains(s, "warn")
  {
    forall i, j | 0 <= i <= j <= |s|
      ensures s[i..j] != "warn"
    {
      if i < j {
        assert s[i..j][0] == s[i];
      }
    }
  }

  /** `initialize_xbmc`'s choice of level. "debug", "info", "error" and "critical" are
      matched whole and any string containing "warn" gives WARNING, all ignoring case;
      anything else falls back to DEBUG. No exact name contains "warn", so at most one
      test matches. */
  function LogLevel(setting: string): (level: Level)
    ensures level == Info <==> Lower(setting) == "info"
    ensures level == Warning <==> Contains(Lower(setting), "warn")
    ensures level == Error <==> Lower(setting) == "error"
    ensures level == Critical <==> Lower(setting) == "critical"
    ensures level == Debug <==>
      || Lower(setting) == "debug"
      || (Lower(setting) !in {"info", "error", "critical"} && !Contains(Lower(setting), "warn"))
  {
    var s := Lower(setting);
    NoWarnWithoutW("debug");
    NoWarnWithoutW("info");
    NoWarnWithoutW("error");
    NoWarnWithoutW("critical");
    if s == "debug" then Debug
    else if s == "info" then Info
    else if Contains(s, "warn") then Warning
    else if s == "error" then Error
    else if s == "critical" then Critical
    else Debug
  }

  /** The level depends only on the lower-cased setting. */
  lemma LogLevelIgnoresCase(setting: string)
    ensures LogLevel(setting) == LogLevel(Lower(setting))
  {
    assert Lower(Lower(setting)) == Lower(setting);
  }

  /** `'%s.%s' % (namespace, method)`: the name a namespace wrapper calls. */
  function Join(namespace: string, method_: string): string {
    namespace + "." + method_
  }

  /** The index of the first `.` in `s`. */
  function FirstDot(s: string): (i: nat)
    requires '.' in s
    ensures i < |s| && s[i] == '.' && '.' !in s[..i]
  {
    if s[0] == '.' then 0 else 1 + FirstDot(s[1..])
  }

  /** `namespace, method = name.split('.')`: the two parts around the only `.`. */
  function SplitDot(name: string): Option<(string, string)> {
    if multiset(name)['.'] != 1 then None
    else
      var i := FirstDot(name);
      Some((name[..i], name[i + 1..]))
  }

  /** Splitting succeeds exactly when `name` holds one `.`, and gives two dot-free parts
      that rejoin to `name`. */
  lemma SplitDotParts(name: string)
    ensures SplitDot(name).Some? <==> multiset(name)['.'] == 1
    ensures SplitDot(name).Some? ==>
      var (namespace, m) := SplitDot(name).value;
      '.' !in namespace && '.' !in m && Join(namespace, m) == name
  {
    if multiset(name)['.'] == 1 {
      var i := FirstDot(name);
      assert name == name[..i] + [name[i]] + name[i + 1..];
      assert multiset(name) == multiset(name[..i]) + multiset([name[i]]) + multiset(name[i + 1..]);
    }
  }

  /** Splitting a joined name gives back its two parts, when neither holds a `.`. */
  lemma SplitJoin(namespace: string, method_: string)
    requires '.' !in namespace && '.' !in method_
    ensures SplitDot(Join(namespace, method_)) == Some((namespace, method_))
  {
    var name := Join(namespace, method_);
    assert name == namespace + ['.'] + method_;
    assert multiset(name) == multiset(namespace) + multiset(['.']) + multiset(method_);
    var i := FirstDot(name);
    forall k | 0 <= k < |namespace|
      ensures name[k] != '.'
    {
      assert name[k] == namespace[k];
    }
    assert name[|namespace|] == '.';
    assert i == |namespace|;
    assert name[..i] == namespace;
    assert name[i + 1..] == method_;
  }

  /** The methods collected so far under `namespace`. */
  function Members(groups: map<string, seq<string>>, namespace: string): seq<string> {
    if namespace in groups then groups[namespace] else []
  }

  /** The `methods` dictionary `decorate_xbmc` builds: each name's method appended to its
      namespace's list; any name that does not split makes the whole grouping fail. */
  function Grouped(names: seq<string>): Option<map<string, seq<string>>> {
    if names == [] then Some(map[])
    else
      var earlier := Grouped(names[..|names| - 1]);
      var split := SplitDot(names[|names| - 1]);
      if earlier.None? || split.None? then None
      else
        var (namespace, method_) := split.value;
        Some(earlier.value[namespace := Members(earlier.value, namespace) + [method_]])
  }

  /** Reference definition: the methods of `namespace`, in the order their names appear. */
  function MethodsOf(names: seq<string>, namespace: string): seq<string> {
    if names == [] then []
    else
      var split := SplitDot(names[|names| - 1]);
      MethodsOf(names[..|names| - 1], namespace)
        + (if split.Some? && split.value.0 == namespace then [split.value.1] else [])
  }

  /** `m` is listed under `namespace` exactly when some name is `namespace.m`. */
  lemma {:induction false} MethodsOfMembers(names: seq<string>, namespace: string, m: string)
    ensures m in MethodsOf(names, namespace) <==>
      exists i :: 0 <= i < |names| && SplitDot(names[i]) == Some((namespace, m))
  {
    if names != [] {
      var k := |names| - 1;
      var init := names[..k];
      MethodsOfMembers(init, namespace, m);
      var last := SplitDot(names[k]);
      var tail := if last.Some? && last.value.0 == namespace then [last.value.1] else [];
      assert MethodsOf(names, namespace) == MethodsOf(init, namespace) + tail;
      assert m in tail <==> last == Some((namespace, m));
      if m in MethodsOf(init, namespace) {
        var i :| 0 <= i < k && SplitDot(init[i]) == Some((namespace, m));
        assert init[i] == names[i];
      }
      if i :| 0 <= i < k && SplitDot(names[i]) == Some((namespace, m)) {
        assert init[i] == names[i];
      }
    }
  }

  /** Grouping fails exactly when some name does not hold exactly one `.`. */
  lemma {:induction false} GroupedSucceeds(names: seq<string>)
    ensures Grouped(names).Some? <==> forall i :: 0 <= i < |names| ==> SplitDot(names[i]).Some?
  {
    if names != [] {
      var k := |names| - 1;
      GroupedSucceeds(names[..k]);
      assert forall i :: 0 <= i < k ==> names[..k][i] == names[i];
    }
  }

  /** Each namespace's list is exactly its methods in order of appearance, and a
      namespace is a key exactly when it has at least one method. */
  lemma {:induction false} GroupedInOrder(names: seq<string>, namespace: string)
    requires Grouped(names).Some?
    ensures Members(Grouped(names).value, namespace) == MethodsOf(names, namespace)
    ensures namespace in Grouped(names).value <==> MethodsOf(names, namespace) != []
  {
    if names != [] {
      GroupedInOrder(names[..|names| - 1], namespace);
    }
  }

  /** Every namespace key is the part before the `.` of some input name. */
  lemma NamespacesArePrefixes(names: seq<string>, namespace: string)
    requires Grouped(names).Some? && namespace in Grouped(names).value
    ensures exists i :: 0 <= i < |names| && |namespace| < |names[i]| && names[i][..|namespace| + 1] == namespace + "."
  {
    GroupedInOrder(names, namespace);
    var m := MethodsOf(names, namespace)[0];
    MethodsOfMembers(names, namespace, m);
    var i :| 0 <= i < |names| && SplitDot(names[i]) == Some((namespace, m));
    SplitDotParts(names[i]);
    assert names[i][..|namespace| + 1] == Join(namespace, m)[..|namespace| + 1] == namespace + ".";
  }

  /** The number of entries over all namespaces. */
  ghost function Total(groups: map<string, seq<string>>): nat
    decreases |groups|
  {
    if groups == map[] then 0
    else
      var k :| k in groups;
      assert (groups - {k}).Keys == groups.Keys - {k};
      |groups[k]| + Total(groups - {k})
  }

  /** `Total` does not depend on which key is taken first. */
  lemma {:induction false} TotalRemove(groups: map<string, seq<string>>, k: string)
    requires k in groups
    ensures Total(groups) == |groups[k]| + Total(groups - {k})
    decreases |groups|
  {
    var j :| j in groups && Total(groups) == |groups[j]| + Total(groups - {j});
    if j != k {
      assert (groups - {j}).Keys == groups.Keys - {j};
      assert (groups - {k}).Keys == groups.Keys - {k};
      TotalRemove(groups - {j}, k);
      TotalRemove(groups - {k}, j);
      assert groups - {j} - {k} == groups - {k} - {j};
    }
  }

  /** The grouped entries number exactly as many as the input names. */
  lemma {:induction false} GroupedTotal(names: seq<string>)
    requires Grouped(names).Some?
    ensures Total(Grouped(names).value) == |names|
  {
    if names != [] {
      var k := |names| - 1;
      var earlier := Grouped(names[..k]).value;
      var (namespace, m) := SplitDot(names[k]).value;
      var later := earlier[namespace := Members(earlier, namespace) + [m]];
      GroupedTotal(names[..k]);
      TotalRemove(later, namespace);
      assert later - {namespace} == earlier - {namespace};
      if namespace in earlier {
        TotalRemove(earlier, namespace);
      } else {
        assert earlier - {namespace} == earlier;
      }
    }
  }

  /** The grouping loop of `decorate_xbmc`, appending in place. */
  method GroupByNamespace(names: seq<string>) returns (r: Option<map<string, seq<string>>>)
    ensures r == Grouped(names)
  {
    var groups: map<string, seq<string>> := map[];
    for i := 0 to |names|
      invariant Grouped(names[..i]) == Some(groups)
    {
      assert names[..i + 1][..i] == names[..i];
      assert names[..i + 1][i] == names[i];
      var split := SplitDot(names[i]);
      if split.None? {
        GroupedSucceeds(names);
        return None;
      }
      var (namespace, method_) := split.value;
      ghost var expected := groups[namespace := Members(groups, namespace) + [method_]];
      assert Grouped(names[..i + 1]) == Some(expected);
      if namespace !in groups {
        groups := groups[namespace := []];
      }
      groups := groups[namespace := groups[namespace] + [method_]];
      assert groups == expected;
    }
    assert names[..|names|] == names;
    r := Some(groups);
  }

  /** A method is grouped under a namespace exactly when some input name is
      `namespace.method`. */
  lemma GroupedEntries(names: seq<string>, namespace: string, m: string)
    requires Grouped(names).Some?
    ensures (namespace in Grouped(names).value && m in Grouped(names).value[namespace]) <==>
      exists i :: 0 <= i < |names| && SplitDot(names[i]) == Some((namespace, m))
  {
    GroupedInOrder(names, namespace);
    MethodsOfMembers(names, namespace, m);
  }

  /** The wrappers `Namespace.configure_methods` sets: one per method, calling the full name. */
  function Wrappers(namespace: string, methods: seq<string>): map<string, string> {
    map m | m in methods :: Join(namespace, m)
  }

  /** `Namespace.configure_methods`: sets, for each listed method in turn, an attribute
      under the method's name whose wrapper calls `namespace.method`. */
  method ConfigureMethods(namespace: string, methods: seq<string>) returns (wrappers: map<string, string>)
    ensures wrappers == Wrappers(namespace, methods)
    ensures wrappers.Keys == set m | m in methods
    ensures '.' !in namespace ==> forall m :: m in wrappers && '.' !in m ==> SplitDot(wrappers[m]) == Some((namespace, m))
  {
    wrappers := map[];
    for j := 0 to |methods|
      invariant wrappers == Wrappers(namespace, methods[..j])
    {
      assert methods[..j + 1] == methods[..j] + [methods[j]];
      wrappers := wrappers[methods[j] := Join(namespace, methods[j])];
    }
    assert methods[..|methods|] == methods;
    forall m | '.' !in namespace && m in wrappers && '.' !in m
      ensures SplitDot(wrappers[m]) == Some((namespace, m))
    {
      SplitJoin(namespace, m);
    }
  }

  /** `decorate_xbmc` over the client's method names: one attribute per namespace, on it
      one wrapper per method, each wrapper given by the full name it calls. Every input
      name is reachable as `namespace.method`, and every wrapper calls an input name
      that splits back to its own namespace and attribute. */
  method Decorate(names: seq<string>) returns (r: Option<map<string, map<string, string>>>)
    ensures r.Some? <==> forall i :: 0 <= i < |names| ==> SplitDot(names[i]).Some?
    ensures r.Some? ==> forall i :: 0 <= i < |names| ==>
      var (namespace, m) := SplitDot(names[i]).value;
      namespace in r.value && m in r.value[namespace] && r.value[namespace][m] == names[i]
    ensures r.Some? ==> forall namespace, m :: namespace in r.value && m in r.value[namespace] ==>
      r.value[namespace][m] in names && SplitDot(r.value[namespace][m]) == Some((namespace, m))
  {
    GroupedSucceeds(names);
    var grouped := GroupByNamespace(names);
    if grouped.None? {
      return None;
    }
    var groups := grouped.value;
    var attributes: map<string, map<string, string>> := map[];
    var pending := groups.Keys;
    while pending != {}
      invariant pending <= groups.Keys
      invariant attributes.Keys == groups.Keys - pending
      invariant forall namespace :: namespace in attributes ==> attributes[namespace] == Wrappers(namespace, groups[namespace])
      decreases pending
    {
      var namespace :| namespace in pending;
      var wrappers := ConfigureMethods(namespace, groups[namespace]);
      attributes := attributes[namespace := wrappers];
      pending := pending - {namespace};
    }
    r := Some(attributes);
    forall i | 0 <= i < |names|
      ensures var (namespace, m) := SplitDot(names[i]).value;
        namespace in attributes && m in attributes[namespace] && attributes[namespace][m] == names[i]
    {
      var (namespace, m) := SplitDot(names[i]).value;
      SplitDotParts(names[i]);
      GroupedEntries(names, namespace, m);
    }
    forall namespace, m | namespace in attributes && m in attributes[namespace]
      ensures attributes[namespace][m] in names && SplitDot(attributes[namespace][m]) == Some((namespace, m))
    {
      GroupedEntries(names, namespace, m);
      var i :| 0 <= i < |names| && SplitDot(names[i]) == Some((namespace, m));
      SplitDotParts(names[i]);
    }
  }
}

=== FILE: core.dfy ===
/** The notification and remote-method core (pythonhtpc/core.py): publish/subscribe
    (`HTPCObject`), the method gate (`RPCServer`) and the peer wiring (`EventHandler`).
    Python's subclassing becomes composition: an `RpcServer` and an `EventHandler` each
    own the `HtpcObject` that holds their notification state. */
module Core {
  import opened Optional
  import opened Json

  /** A subscriber's callable, identified by an opaque label. */
  datatype Callback = Callback(handle: string)

  /** One call `callback(sender, value)` made while delivering a notification. */
  datatype Invocation = Invocation(callback: Callback, sender: HtpcObject, value: Value)

  /** The subscription table: notification name to callbacks, in subscription order. */
  type Table = map<string, seq<Callback>>

  /** The callbacks subscribed to `name`, none when it has no entry. */
  function Listeners(table: Table, name: string): seq<Callback> {
    if name in table then table[name] else []
  }

  /** `table` after appending `callback` to the list of `name`, created empty if absent. */
  function Appended(table: Table, name: string, callback: Callback): Table {
    table[name := Listeners(table, name) + [callback]]
  }

  /** `calls` invokes the callbacks of `callbacks` in list order, with `(sender, value)`, up to
      and including the first call that raises (`raises(i)`: the `i`-th call of this delivery
      raises, so a callback listed twice may succeed once and raise the next time): the
      delivery loop has no handler, so a raise ends it. When none raises, all are called. */
  predicate DeliversUntilRaise(calls: seq<Invocation>, callbacks: seq<Callback>, sender: HtpcObject, value: Value,
                               raises: nat -> bool) {
    && |calls| <= |callbacks|
    && (forall i :: 0 <= i < |calls| ==> calls[i] == Invocation(callbacks[i], sender, value))
    && (forall i :: 0 <= i < |calls| - 1 ==> !raises(i))
    && (|calls| < |callbacks| ==> |calls| > 0 && raises(|calls| - 1))
  }

  /** When no call raises, every callback is called, once per listing, in list order. */
  lemma DeliveryReachesAllWithoutRaise(calls: seq<Invocation>, callbacks: seq<Callback>, sender: HtpcObject,
                                       value: Value, raises: nat -> bool)
    requires DeliversUntilRaise(calls, callbacks, sender, value, raises)
    requires forall i :: 0 <= i < |callbacks| ==> !raises(i)
    ensures calls == seq(|callbacks|, i requires 0 <= i < |callbacks| => Invocation(callbacks[i], sender, value))
  {
  }

  /** Delivery stops right after the first raising call: the callbacks behind it are
      never called. */
  lemma DeliveryStopsAtFirstRaise(calls: seq<Invocation>, callbacks: seq<Callback>, sender: HtpcObject,
                                  value: Value, raises: nat -> bool, k: nat)
    requires DeliversUntilRaise(calls, callbacks, sender, value, raises)
    requires k < |callbacks| && raises(k)
    requires forall i :: 0 <= i < k ==> !raises(i)
    ensures |calls| == k + 1
  {
  }

  /** A callback listed twice may succeed on its first call and raise on its second:
      delivery to `[a, b, a, c]` then calls `a`, `b`, `a` and stops. */
  lemma RepeatedCallbackRaisesOnSecondCall(a: Callback, b: Callback, c: Callback, sender: HtpcObject, value: Value)
    ensures DeliversUntilRaise([Invocation(a, sender, value), Invocation(b, sender, value), Invocation(a, sender, value)],
                               [a, b, a, c], sender, value, i => i == 2)
  {
  }

  /** `HTPCObject`: publishes notification names and delivers values to subscribers. */
  class HtpcObject {
    const name: string
    var published: seq<string>
    var subscribed: Table

    /** A name absent from the published list never has subscribers, and an entry
        is only ever created together with its first callback. */
    ghost predicate Valid()
      reads this
    {
      forall n :: n in subscribed ==> n in published && subscribed[n] != []
    }

    constructor (name: string)
      ensures this.name == name && published == [] && subscribed == map[]
      ensures Valid()
    {
      this.name := name;
      published := [];
      subscribed := map[];
    }

    /** `available_notifications`: the published list, which covers every subscribed name. */
    function AvailableNotifications(): (r: seq<string>)
      reads this
      ensures forall n :: n in r <==> n in published
      ensures Valid() ==> forall n :: n in subscribed ==> n in r
    {
      published
    }

    /** `add_notification_subscription`: an unpublished name is refused with `None` and no
        change; otherwise the callback goes at the end of that name's list and the name
        is returned. */
    method AddNotificationSubscription(notification: string, callback: Callback) returns (r: Option<string>)
      modifies this`subscribed
      ensures old(Valid()) ==> Valid()
      ensures notification !in published ==> r == None && subscribed == old(subscribed)
      ensures notification in published ==>
        r == Some(notification) && subscribed == Appended(old(subscribed), notification, callback)
    {
      if notification !in published {
        return None;
      }
      if notification !in subscribed {
        subscribed := subscribed[notification := []];
      }
      subscribed := subscribed[notification := subscribed[notification] + [callback]];
      r := Some(notification);
    }

    /** `notify`: the invocations the delivery thread makes, in order, ending early at a
        call that raises. A name without an entry delivers nothing. */
    method Notify(notification: string, value: Value, raises: nat -> bool) returns (calls: seq<Invocation>)
      ensures notification !in subscribed ==> calls == []
      ensures DeliversUntilRaise(calls, Listeners(subscribed, notification), this, value, raises)
    {
      if notification !in subscribed {
        return [];
      }
      var callbacks := subscribed[notification];
      calls := [];
      var i := 0;
      while i < |callbacks|
        invariant 0 <= i <= |callbacks| && |calls| == i
        invariant forall j :: 0 <= j < i ==> calls[j] == Invocation(callbacks[j], this, value)
        invariant forall j :: 0 <= j < i ==> !raises(j)
      {
        calls := calls + [Invocation(callbacks[i], this, value)];
        if raises(i) {
          return;
        }
        i := i + 1;
      }
    }
  }

  /** Subscribing to one name appends to that list and keeps every other list. */
  lemma AppendedKeepsOthers(table: Table, name: string, callback: Callback, other: string)
    requires other != name
    ensures Listeners(Appended(table, name, callback), other) == Listeners(table, other)
    ensures Listeners(Appended(table, name, callback), name) == Listeners(table, name) + [callback]
  {
  }

  /** A request handed to the transport by `_execute_method`. */
  datatype Request = Request(methodName: string, params: Value, wait: bool)

  /** What a call returns, and the requests it issued on the way. */
  datatype CallResult = CallResult(result: Option<Value>, sent: seq<Request>)

  /** A call that returned `None` without reaching the transport. */
  const NoCall: CallResult := CallResult(None, [])

  /** `RPCServer`: a notifier with a list of callable methods and a channel opened by `start`. */
  class RpcServer {
    const name: string
    /** The concrete type of the server, which `EventHandler` keys its interests by. */
    const kind: string
    const notifier: HtpcObject
    var methods: seq<string>
    /** Whether `_rpc` holds a channel (it is `None` until `start` succeeds). */
    var live: bool

    constructor (name: string, kind: string)
      ensures this.name == name && this.kind == kind && !live && methods == []
      ensures fresh(notifier) && notifier.name == name
      ensures notifier.published == [] && notifier.subscribed == map[] && notifier.Valid()
    {
      this.name := name;
      this.kind := kind;
      notifier := new HtpcObject(name);
      methods := [];
      live := false;
    }

    /** `start`: `_rpc = _init_rpc()`. `channelUp` is whether opening the channel succeeded;
        when it fails the exception leaves `_rpc` as it was and start fails. */
    method Start(channelUp: bool) returns (ok: bool)
      modifies this`live
      ensures ok == channelUp && live == (old(live) || channelUp)
    {
      if channelUp {
        live := true;
      }
      ok := channelUp;
    }

    /** `available_methods`. */
    function AvailableMethods(): (r: seq<string>)
      reads this
      ensures forall m :: m in r <==> m in methods
    {
      methods
    }

    /** `execute_method`: parameters that are missing or `None` become `{}`; an unknown
        method yields `None` and never reaches `execute` (the concrete `_execute_method`),
        a known one yields exactly what `execute` does. */
    function ExecuteMethod(methodName: string, params: Option<Value>, wait: bool,
                           execute: (string, Value, bool) -> CallResult): (r: CallResult)
      reads this
      ensures methodName !in methods ==> r == NoCall
      ensures methodName in methods && (params.None? || params.value.Null?) ==>
        r == execute(methodName, Obj(map[]), wait)
      ensures methodName in methods && params.Some? && !params.value.Null? ==>
        r == execute(methodName, params.value, wait)
    {
      if methodName !in methods then NoCall
      else execute(methodName, ParamsOrEmpty(params), wait)
    }
  }

  /** `if params is None: params = {}`: an absent argument and an explicit `None` (JSON
      null) both become the empty object. */
  function ParamsOrEmpty(params: Option<Value>): (p: Value)
    ensures !p.Null?
  {
    if params.None? || params.value.Null? then Obj(map[]) else params.value
  }

  /** One entry of a consumer's interest table: a notification name and its callback. */
  type Interest = (string, Callback)

  /** How many of `entries` `connect_to_rpc` counts: those the peer accepts (their name
      is published) and whose returned name is truthy, i.e. not the empty string. */
  function CountAccepted(entries: seq<Interest>, published: seq<string>): (n: nat)
    ensures n <= |entries|
    ensures n == 0 <==> forall i :: 0 <= i < |entries| ==> entries[i].0 !in published || entries[i].0 == ""
  {
    if entries == [] then 0
    else
      var last := entries[|entries| - 1];
      CountAccepted(entries[..|entries| - 1], published)
        + (if last.0 in published && last.0 != "" then 1 else 0)
  }

  /** The peer's table after `add_notification_subscription` for each entry, in order. */
  function SubscribeAll(table: Table, published: seq<string>, entries: seq<Interest>): Table {
    if entries == [] then table
    else
      var last := entries[|entries| - 1];
      var before := SubscribeAll(table, published, entries[..|entries| - 1]);
      if last.0 in published then Appended(before, last.0, last.1) else before
  }

  /** The callbacks that `entries` subscribes to `name`, in order. */
  function CallbacksFor(entries: seq<Interest>, name: string): seq<Callback> {
    if entries == [] then []
    else
      var last := entries[|entries| - 1];
      CallbacksFor(entries[..|entries| - 1], name) + (if last.0 == name then [last.1] else [])
  }

  /** Wiring a peer appends, to each published name's list, exactly the callbacks the
      interest table gives for it, in table order, and leaves every other list alone. */
  lemma {:induction false} SubscribeAllListeners(table: Table, published: seq<string>, entries: seq<Interest>, name: string)
    ensures name in published ==>
      Listeners(SubscribeAll(table, published, entries), name) == Listeners(table, name) + CallbacksFor(entries, name)
    ensures name !in published ==>
      Listeners(SubscribeAll(table, published, entries), name) == Listeners(table, name)
  {
    if entries != [] {
      var init := entries[..|entries| - 1];
      var last := entries[|entries| - 1];
      SubscribeAllListeners(table, published, init, name);
      if last.0 in published && last.0 != name {
        AppendedKeepsOthers(SubscribeAll(table, published, init), last.0, last.1, name);
      }
    }
  }

  /** Wiring keeps the notifier's invariant: only published names gain entries, and each
      entry is non-empty. */
  lemma {:induction false} SubscribeAllValid(table: Table, published: seq<string>, entries: seq<Interest>)
    requires forall n :: n in table ==> n in published && table[n] != []
    ensures var t := SubscribeAll(table, published, entries);
      forall n :: n in t ==> n in published && t[n] != []
  {
    if entries != [] {
      SubscribeAllValid(table, published, entries[..|entries| - 1]);
    }
  }

  /** `EventHandler`: wires a consumer's interests into the peers it is given. */
  class EventHandler {
    const notifier: HtpcObject
    /** `_notifications_to_register`: peer type to interest entries, in iteration order. */
    const interests: map<string, seq<Interest>>
    /** `_connected_rpcs`: peer name to peer. */
    var connected: map<string, RpcServer>
    /** `_registered_notifications`: the count returned for the LAST peer given to the
        constructor (0 when none was given, where `start` fails before reading it). */
    var registered: int

    /** `_notifications_to_register.get(rpc_type, dict())`. */
    function InterestsFor(kind: string): seq<Interest> {
      if kind in interests then interests[kind] else []
    }

    /** `connect_to_rpc`: a peer whose name is already connected is refused with 0 and
        nothing changes; otherwise it is recorded, each interest entry for its type is
        offered to it, and the number counted is returned. */
    method ConnectToRpc(peer: RpcServer) returns (count: nat)
      modifies this`connected, peer.notifier`subscribed
      ensures old(peer.notifier.Valid()) ==> peer.notifier.Valid()
      ensures peer.name in old(connected) ==>
        count == 0 && connected == old(connected) && peer.notifier.subscribed == old(peer.notifier.subscribed)
      ensures peer.name !in old(connected) ==>
        && connected == old(connected)[peer.name := peer]
        && count == CountAccepted(InterestsFor(peer.kind), peer.notifier.published)
        && peer.notifier.subscribed
           == SubscribeAll(old(peer.notifier.subscribed), peer.notifier.published, InterestsFor(peer.kind))
    {
      if peer.name in connected {
        return 0;
      }
      connected := connected[peer.name := peer];
      count := Offer(peer.notifier, InterestsFor(peer.kind));
    }

    /** `connect_to_rpc`'s registration loop: offers each entry in turn to `target` and
        counts the names it returns that are not empty. */
    static method Offer(target: HtpcObject, entries: seq<Interest>) returns (count: nat)
      modifies target`subscribed
      ensures old(target.Valid()) ==> target.Valid()
      ensures count == CountAccepted(entries, target.published)
      ensures target.subscribed == SubscribeAll(old(target.subscribed), target.published, entries)
    {
      count := 0;
      for i := 0 to |entries|
        invariant old(target.Valid()) ==> target.Valid()
        invariant count == CountAccepted(entries[..i], target.published)
        invariant target.subscribed == SubscribeAll(old(target.subscribed), target.published, entries[..i])
      {
        assert entries[..i + 1][..i] == entries[..i] && entries[..i + 1][i] == entries[i];
        var accepted := target.AddNotificationSubscription(entries[i].0, entries[i].1);
        if accepted.Some? && accepted.value != "" {
          count := count + 1;
        }
      }
      assert entries[..|entries|] == entries;
    }

    /** `__init__`: connects every peer in turn, keeping only the last count, then resets
        its own table and publishes `toPublish`. Under a repeated name the first peer is
        kept, and only a peer that is the first under its name has its table wired. Each
        server owns its notification state, so distinct peers have distinct notifiers. The
        handler's own table and list are set up front here: no peer can reach them, so the
        result is the same as resetting them after the loop. */
    constructor (name: string, interests: map<string, seq<Interest>>, toPublish: seq<string>, rpcs: seq<RpcServer>)
      requires DistinctNotifiers(rpcs)
      modifies (set i | 0 <= i < |rpcs| :: rpcs[i].notifier)`subscribed
      ensures this.interests == interests && fresh(notifier) && notifier.name == name
      ensures notifier.published == toPublish && notifier.subscribed == map[] && notifier.Valid()
      ensures connected.Keys == Names(rpcs)
      ensures KeepsFirst(rpcs, |rpcs|, connected)
      ensures forall k :: 0 <= k < |rpcs| ==>
        rpcs[k].notifier.subscribed
        == if WiredAmong(rpcs, |rpcs|, rpcs[k])
           then SubscribeAll(old(rpcs[k].notifier.subscribed), rpcs[k].notifier.published, InterestsFor(rpcs[k].kind))
           else old(rpcs[k].notifier.subscribed)
      ensures registered == if rpcs == [] then 0 else RegistrationAt(interests, rpcs, |rpcs| - 1, rpcs[|rpcs| - 1].notifier.published)
    {
      var own := new HtpcObject(name);
      own.subscribed := map[];
      own.published := own.published + toPublish;
      notifier := own;
      this.interests := interests;
      connected := map[];
      registered := 0;
      new;
      ConnectAll(rpcs);
      ConnectedAfterKeys(rpcs, |rpcs|);
      ConnectedAfterKeepsFirst(rpcs, |rpcs|);
      assert rpcs[..|rpcs|] == rpcs;
    }

    /** `__init__`'s loop: connects every peer in turn, storing the last count. */
    method ConnectAll(rpcs: seq<RpcServer>)
      requires DistinctNotifiers(rpcs) && connected == map[]
      modifies this`connected, this`registered, (set i | 0 <= i < |rpcs| :: rpcs[i].notifier)`subscribed
      ensures connected == ConnectedAfter(rpcs, |rpcs|)
      ensures forall k :: 0 <= k < |rpcs| ==>
        rpcs[k].notifier.subscribed
        == if WiredAmong(rpcs, |rpcs|, rpcs[k])
           then SubscribeAll(old(rpcs[k].notifier.subscribed), rpcs[k].notifier.published, InterestsFor(rpcs[k].kind))
           else old(rpcs[k].notifier.subscribed)
      ensures registered == if rpcs == [] then old(registered)
                            else RegistrationAt(interests, rpcs, |rpcs| - 1, rpcs[|rpcs| - 1].notifier.published)
    {
      ghost var before := Tables(rpcs);
      for i := 0 to |rpcs|
        invariant connected == ConnectedAfter(rpcs, i)
        invariant forall k :: 0 <= k < |rpcs| ==> rpcs[k].notifier.subscribed == WiredTable(rpcs, i, before, this, k)
        invariant registered == if i == 0 then old(registered) else RegistrationAt(interests, rpcs, i - 1, rpcs[i - 1].notifier.published)
      {
        ConnectNext(rpcs, i, before);
      }
    }

    /** One turn of `__init__`'s loop: connects peer `i` and stores the count it returns.
        `before` holds the peers' tables as they were before the first turn. */
    method ConnectNext(rpcs: seq<RpcServer>, i: nat, ghost before: seq<Table>)
      requires i < |rpcs| && |before| == |rpcs|
      requires DistinctNotifiers(rpcs)
      requires connected == ConnectedAfter(rpcs, i)
      requires forall k :: 0 <= k < |rpcs| ==> rpcs[k].notifier.subscribed == WiredTable(rpcs, i, before, this, k)
      modifies this`connected, this`registered, rpcs[i].notifier`subscribed
      ensures connected == ConnectedAfter(rpcs, i + 1)
      ensures forall k :: 0 <= k < |rpcs| ==> rpcs[k].notifier.subscribed == WiredTable(rpcs, i + 1, before, this, k)
      ensures registered == RegistrationAt(interests, rpcs, i, rpcs[i].notifier.published)
    {
      ConnectedAfterKeys(rpcs, i);
      if rpcs[i].name !in Names(rpcs[..i]) {
        FirstNotWiredBefore(rpcs, i);
      }
      registered := ConnectToRpc(rpcs[i]);
      forall k | 0 <= k < |rpcs|
        ensures rpcs[k].notifier.subscribed == WiredTable(rpcs, i + 1, before, this, k)
      {
        if rpcs[k] != rpcs[i] {
          assert rpcs[k].notifier != rpcs[i].notifier;
        }
      }
    }

    /** `start`: fails (the source raises `ValueError`) when no peer is connected or the
        stored count is 0. */
    method Start() returns (ok: bool)
      ensures !ok <==> |connected| == 0 || registered == 0
    {
      ok := |connected| != 0 && registered != 0;
    }
  }

  /** Distinct peers own distinct notification state. */
  predicate DistinctNotifiers(rpcs: seq<RpcServer>) {
    forall i, j :: 0 <= i < |rpcs| && 0 <= j < |rpcs| && rpcs[i] != rpcs[j] ==> rpcs[i].notifier != rpcs[j].notifier
  }

  /** The peers' subscription tables, in peer order. */
  ghost function Tables(rpcs: seq<RpcServer>): (tables: seq<Table>)
    reads set k | 0 <= k < |rpcs| :: rpcs[k].notifier
    ensures |tables| == |rpcs|
    ensures forall k :: 0 <= k < |rpcs| ==> tables[k] == rpcs[k].notifier.subscribed
  {
    if rpcs == [] then [] else Tables(rpcs[..|rpcs| - 1]) + [rpcs[|rpcs| - 1].notifier.subscribed]
  }

  /** The peer at index `j` is the first one given under its name. */
  predicate FirstUnderName(rpcs: seq<RpcServer>, j: int)
    requires 0 <= j < |rpcs|
  {
    forall m :: 0 <= m < j ==> rpcs[m].name != rpcs[j].name
  }

  /** `_connected_rpcs` after `connect_to_rpc` on the first `n` peers: a peer is recorded
      under its name unless that name is already there. */
  function ConnectedAfter(rpcs: seq<RpcServer>, n: nat): map<string, RpcServer>
    requires n <= |rpcs|
  {
    if n == 0 then map[]
    else
      var earlier := ConnectedAfter(rpcs, n - 1);
      if rpcs[n - 1].name in earlier then earlier else earlier[rpcs[n - 1].name := rpcs[n - 1]]
  }

  /** The connected names are exactly the names of the peers connected so far. */
  lemma {:induction false} ConnectedAfterKeys(rpcs: seq<RpcServer>, n: nat)
    requires n <= |rpcs|
    ensures ConnectedAfter(rpcs, n).Keys == Names(rpcs[..n])
  {
    if n > 0 {
      ConnectedAfterKeys(rpcs, n - 1);
      NamesExtend(rpcs, n - 1);
    }
  }

  /** Under a repeated name the first peer stays connected. */
  lemma {:induction false} ConnectedAfterKeepsFirst(rpcs: seq<RpcServer>, n: nat)
    requires n <= |rpcs|
    ensures KeepsFirst(rpcs, n, ConnectedAfter(rpcs, n))
  {
    if n > 0 {
      var earlier := ConnectedAfter(rpcs, n - 1);
      ConnectedAfterKeepsFirst(rpcs, n - 1);
      ConnectedAfterKeys(rpcs, n - 1);
      KeepsFirstStep(rpcs, n - 1, earlier, ConnectedAfter(rpcs, n));
    }
  }

  /** `connected` holds, under the name of each of the first `n` peers that is the first
      under its name, that very peer. */
  predicate KeepsFirst(rpcs: seq<RpcServer>, n: nat, connected: map<string, RpcServer>)
    requires n <= |rpcs|
  {
    forall j :: 0 <= j < n && FirstUnderName(rpcs, j) ==> rpcs[j].name in connected && connected[rpcs[j].name] == rpcs[j]
  }

  /** Connecting peer `i` (recorded only when its name is new) keeps the first peer under
      every name. */
  lemma KeepsFirstStep(rpcs: seq<RpcServer>, i: nat, before: map<string, RpcServer>, after: map<string, RpcServer>)
    requires i < |rpcs| && KeepsFirst(rpcs, i, before)
    requires before.Keys == Names(rpcs[..i])
    requires rpcs[i].name in before ==> after == before
    requires rpcs[i].name !in before ==> after == before[rpcs[i].name := rpcs[i]]
    ensures KeepsFirst(rpcs, i + 1, after)
  {
    FirstUnderNameIffNew(rpcs, i);
    forall j | 0 <= j < i + 1 && FirstUnderName(rpcs, j)
      ensures rpcs[j].name in after && after[rpcs[j].name] == rpcs[j]
    {
      if j < i && rpcs[i].name !in before {
        assert rpcs[j].name in before;
        assert rpcs[j].name != rpcs[i].name;
      }
    }
  }

  /** Peer `k`'s table once the first `n` peers are connected: `before[k]`, with the
      handler's interests for its type subscribed exactly when one of those peers wired it. */
  function WiredTable(rpcs: seq<RpcServer>, n: nat, before: seq<Table>, handler: EventHandler, k: nat): Table
    requires n <= |rpcs| && |before| == |rpcs| && k < |rpcs|
    reads rpcs[k].notifier
  {
    if WiredAmong(rpcs, n, rpcs[k])
    then SubscribeAll(before[k], rpcs[k].notifier.published, handler.InterestsFor(rpcs[k].kind))
    else before[k]
  }

  /** `peer` is, among the first `n` peers, the first one given under its name, so
      connecting those peers wires its table. */
  predicate WiredAmong(rpcs: seq<RpcServer>, n: nat, peer: RpcServer)
    requires n <= |rpcs|
  {
    n > 0 && (WiredAmong(rpcs, n - 1, peer) || (rpcs[n - 1] == peer && rpcs[n - 1].name !in Names(rpcs[..n - 1])))
  }

  /** A peer is the first under its name exactly when no earlier peer carries that name. */
  lemma FirstUnderNameIffNew(rpcs: seq<RpcServer>, i: nat)
    requires i < |rpcs|
    ensures FirstUnderName(rpcs, i) <==> rpcs[i].name !in Names(rpcs[..i])
  {
    if rpcs[i].name in Names(rpcs[..i]) {
      var m :| 0 <= m < i && rpcs[..i][m].name == rpcs[i].name;
      assert rpcs[m].name == rpcs[i].name;
    }
  }

  /** A peer is wired exactly when it stands, among the first `n` peers, at an index
      that is the first under its name. */
  lemma {:induction false} WiredAmongMeaning(rpcs: seq<RpcServer>, n: nat, peer: RpcServer)
    requires n <= |rpcs|
    ensures WiredAmong(rpcs, n, peer) <==> exists j :: 0 <= j < n && rpcs[j] == peer && FirstUnderName(rpcs, j)
  {
    if n > 0 {
      WiredAmongMeaning(rpcs, n - 1, peer);
      FirstUnderNameIffNew(rpcs, n - 1);
    }
  }

  /** A peer that is the first under its name was not wired by the peers before it. */
  lemma FirstNotWiredBefore(rpcs: seq<RpcServer>, i: nat)
    requires i < |rpcs| && rpcs[i].name !in Names(rpcs[..i])
    ensures !WiredAmong(rpcs, i, rpcs[i])
  {
    WiredAmongMeaning(rpcs, i, rpcs[i]);
    forall j | 0 <= j < i
      ensures rpcs[j] != rpcs[i]
    {
      assert rpcs[..i][j] == rpcs[j];
    }
  }

  /** The names of a list of peers. */
  function Names(rpcs: seq<RpcServer>): set<string> {
    set i | 0 <= i < |rpcs| :: rpcs[i].name
  }

  /** One more peer adds its name. */
  lemma NamesExtend(rpcs: seq<RpcServer>, i: nat)
    requires i < |rpcs|
    ensures Names(rpcs[..i + 1]) == Names(rpcs[..i]) + {rpcs[i].name}
  {
    assert rpcs[..i + 1] == rpcs[..i] + [rpcs[i]];
  }

  /** The count `connect_to_rpc` returns for the `k`-th peer given to `__init__`: 0 when
      its name repeats an earlier peer's, otherwise the entries it counted against the
      peer's published list `published`. */
  function RegistrationAt(interests: map<string, seq<Interest>>, rpcs: seq<RpcServer>, k: nat, published: seq<string>): int
    requires k < |rpcs|
  {
    if rpcs[k].name in Names(rpcs[..k]) then 0
    else CountAccepted(if rpcs[k].kind in interests then interests[rpcs[k].kind] else [], published)
  }
}

=== FILE: json.dfy ===
/** Decoded JSON documents, as the JSON-RPC schema and messages carry them. */
module Json {
  import opened Optional

  /** A JSON value. Numbers are integers here (see README, "Left out"); objects are
      maps, as Python's `dict` of a decoded document is. */
  datatype Value =
    | Null
    | Bool(b: bool)
    | Num(n: int)
    | Str(s: string)
    | Arr(items: seq<Value>)
    | Obj(fields: map<string, Value>)

  /** `d[key]` on a decoded value: fails unless `v` is an object holding `key`. */
  function Field(v: Value, key: string): Option<Value> {
    if v.Obj? && key in v.fields then Some(v.fields[key]) else None
  }

  /** What `d.pop(key, None)` yields: JSON null stands for Python's `None`. */
  function PopOrNull(fields: map<string, Value>, key: string): Value {
    if key in fields then fields[key] else Null
  }
}

=== FILE: option.dfy ===
/** The usual optional value: `None` stands for Python's `None` sentinel or a failed step. */
module Optional {

  datatype Option<+T> = None | Some(value: T)
}

=== FILE: schema.dfy ===
/** Normalisation of the discovered JSON-RPC schema (`process_schema` inside
    `XBMCRPC._discover`, pythonhtpc/rpcs/xbmcrpc.py). A failing step is `None`: the
    source raises, and the exception ends the construction of the client. */
module Schema {
  import opened Optional
  import opened Json

  const VersionMethod: string := "JSONRPC.Version"
  const CleanStarted: string := "VideoLibrary.OnCleanStarted"
  const ScreensaverActivated: string := "GUI.OnScreensaverActivated"
  const ScreensaverDeactivated: string := "GUI.OnScreensaverDeactivated"
  const ActivatedText: string := "The screensaver has been activated."
  const DeactivatedText: string := "The screensaver has been deactivated."

  /** A processed method entry: `{'description', 'params', 'returns'}`. */
  datatype MethodConfig = MethodConfig(description: Value, params: Value, returnSchema: Value)

  /** The processed schema: `{'methods': ..., 'notifications': ...}`. */
  datatype Processed = Processed(methods: map<string, MethodConfig>, notifications: map<string, Value>)

  /** `{'type': 'object', 'properties': properties}`. */
  function ObjectSchema(properties: map<string, Value>): Value {
    Obj(map["type" := Str("object"), "properties" := Obj(properties)])
  }

  /** What `for element in p` visits: a list's items; an empty object or an empty string
      yields nothing; any other value makes the comprehension fail (a non-empty object
      or string yields strings, which have no `pop`; a number or null is not iterable). */
  function ParamElements(p: Value): Option<seq<Value>> {
    match p
    case Arr(items) => Some(items)
    case Obj(fields) => if fields == map[] then Some([]) else None
    case Str(s) => if s == "" then Some([]) else None
    case _ => None
  }

  /** `element.pop('name')`: the name and the element left without it. */
  function PopName(element: Value): Option<(string, Value)> {
    if element.Obj? && "name" in element.fields && element.fields["name"].Str?
    then Some((element.fields["name"].s, Obj(element.fields - {"name"})))
    else None
  }

  /** `element` carries the parameter name `n`. */
  predicate Named(element: Value, n: string) {
    PopName(element).Some? && PopName(element).value.0 == n
  }

  /** `dict([(element.pop('name'), element) for element in elements])`. */
  function ByName(elements: seq<Value>): Option<map<string, Value>> {
    if elements == [] then Some(map[])
    else
      var earlier := ByName(elements[..|elements| - 1]);
      var last := PopName(elements[|elements| - 1]);
      if earlier.None? || last.None? then None
      else Some(earlier.value[last.value.0 := last.value.1])
  }

  /** The parameter map succeeds exactly when every element carries a string name. */
  lemma {:induction false} ByNameSucceeds(elements: seq<Value>)
    ensures ByName(elements).Some? <==> forall i :: 0 <= i < |elements| ==> PopName(elements[i]).Some?
  {
    if elements != [] {
      var k := |elements| - 1;
      ByNameSucceeds(elements[..k]);
      assert forall i :: 0 <= i < k ==> elements[..k][i] == elements[i];
    }
  }

  /** Its keys are exactly the names the elements carry. */
  lemma {:induction false} ByNameKeys(elements: seq<Value>)
    requires ByName(elements).Some?
    ensures forall n :: n in ByName(elements).value <==> exists i :: 0 <= i < |elements| && Named(elements[i], n)
  {
    if elements != [] {
      var k := |elements| - 1;
      var init := elements[..k];
      ByNameKeys(init);
      forall n
        ensures n in ByName(elements).value <==> exists i :: 0 <= i < |elements| && Named(elements[i], n)
      {
        if n in ByName(init).value {
          var i :| 0 <= i < k && Named(init[i], n);
          assert Named(elements[i], n);
        }
        if exists i :: 0 <= i < |elements| && Named(elements[i], n) {
          var i :| 0 <= i < |elements| && Named(elements[i], n);
          if i < k {
            assert Named(init[i], n);
          }
        }
      }
    }
  }

  /** Each name maps to the LAST element carrying it, without its name: a later
      duplicate wins. */
  lemma {:induction false} ByNameLastWins(elements: seq<Value>, i: nat)
    requires ByName(elements).Some? && i < |elements| && PopName(elements[i]).Some?
    requires forall j :: i < j < |elements| ==> !Named(elements[j], PopName(elements[i]).value.0)
    ensures PopName(elements[i]).value.0 in ByName(elements).value
    ensures ByName(elements).value[PopName(elements[i]).value.0] == PopName(elements[i]).value.1
  {
    var k := |elements| - 1;
    if i < k {
      var init := elements[..k];
      assert init[i] == elements[i];
      assert !Named(elements[k], PopName(elements[i]).value.0);
      forall j | i < j < |init|
        ensures !Named(init[j], PopName(init[i]).value.0)
      {
        assert init[j] == elements[j];
      }
      ByNameLastWins(init, i);
    }
  }

  /** One method's entry rebuilt, failing on a missing key or a malformed parameter list. */
  function ProcessMethod(config: Value): Option<MethodConfig> {
    var params := Field(config, "params");
    var description := Field(config, "description");
    var returnSchema := Field(config, "returns");
    if params.None? || description.None? || returnSchema.None? then None
    else match ParamElements(params.value)
      case None => None
      case Some(elements) =>
        match ByName(elements)
        case None => None
        case Some(properties) => Some(MethodConfig(description.value, ObjectSchema(properties), returnSchema.value))
  }

  /** The `JSONRPC.Version` patch: its `returns.properties` wrapped in a `version` envelope. */
  function VersionEnvelope(returnSchema: Value): Option<Value> {
    match Field(returnSchema, "properties")
    case None => None
    case Some(properties) =>
      Some(Obj(map["type" := Str("object"),
                   "properties" := Obj(map["version" := Obj(map["properties" := properties])])]))
  }

  /** `v` with its `description` set to `text`. */
  function WithDescription(v: Value, text: string): Value
    requires v.Obj?
  {
    Obj(v.fields["description" := Str(text)])
  }

  /** The notification table the screensaver patch leaves: the two screensaver names and
      `VideoLibrary.OnCleanStarted` all denote one object, whose description ends as the
      "deactivated" text; every other entry is untouched. */
  function ScreensaverAliased(notifications: map<string, Value>): Option<map<string, Value>> {
    if CleanStarted in notifications && notifications[CleanStarted].Obj? then
      var shared := WithDescription(notifications[CleanStarted], DeactivatedText);
      Some(notifications[ScreensaverActivated := shared][ScreensaverDeactivated := shared][CleanStarted := shared])
    else None
  }

  /** The whole of `process_schema`, as a value. */
  function ProcessedSchema(schema: Value): Option<Processed> {
    var methods := Field(schema, "methods");
    var notifications := Field(schema, "notifications");
    if methods.None? || !methods.value.Obj? || notifications.None? || !notifications.value.Obj? then None
    else if !(forall k :: k in methods.value.fields ==> ProcessMethod(methods.value.fields[k]).Some?) then None
    else
      var processed := map k | k in methods.value.fields :: ProcessMethod(methods.value.fields[k]).value;
      if VersionMethod !in processed then None
      else match VersionEnvelope(processed[VersionMethod].returnSchema)
        case None => None
        case Some(envelope) =>
          match ScreensaverAliased(notifications.value.fields)
          case None => None
          case Some(aliased) =>
            Some(Processed(processed[VersionMethod := processed[VersionMethod].(returnSchema := envelope)], aliased))
  }

  /** Every processed method keeps its description, gets a name-keyed object schema as
      `params` built from its own parameter list, and keeps its `returns` unless it is
      `JSONRPC.Version`; no method is added or lost. */
  lemma ProcessedMethods(schema: Value, name: string)
    requires ProcessedSchema(schema).Some?
    ensures var source := schema.fields["methods"].fields;
      name in ProcessedSchema(schema).value.methods <==> name in source
    ensures var source := schema.fields["methods"].fields;
      name in source ==>
        var config := source[name].fields;
        var entry := ProcessedSchema(schema).value.methods[name];
        && entry.description == config["description"]
        && ParamElements(config["params"]).Some?
        && ByName(ParamElements(config["params"]).value).Some?
        && entry.params == ObjectSchema(ByName(ParamElements(config["params"]).value).value)
        && (name != VersionMethod ==> entry.returnSchema == config["returns"])
  {
    var source := schema.fields["methods"].fields;
    if name in source {
      assert ProcessMethod(source[name]).Some?;
    }
  }

  /** `JSONRPC.Version`'s `returns` becomes
      `{'type': 'object', 'properties': {'version': {'properties': P}}}` where P is the
      `properties` of the `returns` it was discovered with. */
  lemma VersionReturnsWrapped(schema: Value)
    requires ProcessedSchema(schema).Some?
    ensures var source := schema.fields["methods"].fields;
      && VersionMethod in source
      && var discovered := source[VersionMethod].fields["returns"];
      && discovered.Obj? && "properties" in discovered.fields
      && ProcessedSchema(schema).value.methods[VersionMethod].returnSchema
         == Obj(map["type" := Str("object"),
                    "properties" := Obj(map["version" := Obj(map["properties" := discovered.fields["properties"]])])])
  {
    var source := schema.fields["methods"].fields;
    assert ProcessMethod(source[VersionMethod]).Some?;
  }

  /** Processing fails when `JSONRPC.Version` is not a method or
      `VideoLibrary.OnCleanStarted` is not a notification object. */
  lemma PatchedEntriesRequired(schema: Value)
    requires schema.Obj? && "methods" in schema.fields && "notifications" in schema.fields
    requires schema.fields["methods"].Obj? && schema.fields["notifications"].Obj?
    requires VersionMethod !in schema.fields["methods"].fields
          || CleanStarted !in schema.fields["notifications"].fields
    ensures ProcessedSchema(schema) == None
  {
  }

  /** After processing, both screensaver names and `VideoLibrary.OnCleanStarted` hold the
      same entry: `VideoLibrary.OnCleanStarted`'s discovered object with the "deactivated"
      description. Every other notification passes through unchanged. */
  lemma ScreensaverEntriesShared(schema: Value)
    requires ProcessedSchema(schema).Some?
    ensures var source := schema.fields["notifications"].fields;
      var result := ProcessedSchema(schema).value.notifications;
      && CleanStarted in source && source[CleanStarted].Obj?
      && result.Keys == source.Keys + {ScreensaverActivated, ScreensaverDeactivated}
      && result[ScreensaverActivated] == result[ScreensaverDeactivated] == result[CleanStarted]
      && result[CleanStarted] == Obj(source[CleanStarted].fields["description" := Str(DeactivatedText)])
      && forall k :: k in source && k !in {CleanStarted, ScreensaverActivated, ScreensaverDeactivated} ==>
           result[k] == source[k]
  {
  }

  /** The parameter comprehension, element by element: pops each name and keys the
      element by it, later elements overwriting earlier ones. */
  method CollectParams(elements: seq<Value>) returns (r: Option<map<string, Value>>)
    ensures r == ByName(elements)
  {
    var properties: map<string, Value> := map[];
    for i := 0 to |elements|
      invariant ByName(elements[..i]) == Some(properties)
    {
      assert elements[..i + 1][..i] == elements[..i];
      var popped := PopName(elements[i]);
      if popped.None? {
        assert ByName(elements[..i + 1]) == None;
        ByNameFailureSticks(elements, i + 1);
        return None;
      }
      properties := properties[popped.value.0 := popped.value.1];
    }
    assert elements[..|elements|] == elements;
    r := Some(properties);
  }

  /** Once a prefix of the elements fails, the whole list fails. */
  lemma {:induction false} ByNameFailureSticks(elements: seq<Value>, k: nat)
    requires k <= |elements| && ByName(elements[..k]) == None
    ensures ByName(elements) == None
  {
    if k < |elements| {
      var n := |elements|;
      assert elements[..n - 1][..k] == elements[..k];
      ByNameFailureSticks(elements[..n - 1], k);
    } else {
      assert elements[..k] == elements;
    }
  }

  /** The screensaver patch as the source performs it, on object identities: every entry
      of the decoded table is its own object, named here by the key it was decoded under;
      `slot` says which object a key denotes and `heap` holds each object's contents.
      Binding a key to `VideoLibrary.OnCleanStarted`'s entry shares that object, so the
      later description assignment overwrites the earlier one for all three keys. */
  method AliasScreensaver(notifications: map<string, Value>) returns (r: Option<map<string, Value>>)
    ensures r == ScreensaverAliased(notifications)
  {
    var heap := notifications;
    var slot: map<string, string> := map k | k in notifications :: k;
    if CleanStarted !in slot || !heap[slot[CleanStarted]].Obj? {
      return None;
    }
    slot := slot[ScreensaverActivated := slot[CleanStarted]];
    heap := heap[slot[ScreensaverActivated] := WithDescription(heap[slot[ScreensaverActivated]], ActivatedText)];
    slot := slot[ScreensaverDeactivated := slot[CleanStarted]];
    heap := heap[slot[ScreensaverDeactivated] := WithDescription(heap[slot[ScreensaverDeactivated]], DeactivatedText)];
    r := Some(map k | k in slot :: heap[slot[k]]);
    ghost var shared := WithDescription(notifications[CleanStarted], DeactivatedText);
    assert slot[ScreensaverActivated] == slot[ScreensaverDeactivated] == CleanStarted;
    assert heap[CleanStarted] == shared by {
      assert heap[CleanStarted].fields == notifications[CleanStarted].fields["description" := Str(DeactivatedText)];
    }
    ghost var expected := notifications[ScreensaverActivated := shared][ScreensaverDeactivated := shared][CleanStarted := shared];
    assert heap == notifications[CleanStarted := shared];
    assert r.value.Keys == expected.Keys;
    assert forall k :: k in expected ==> r.value[k] == expected[k];
    assert r.value == expected;
  }

  /** `process_schema`: rebuilds every method entry, then applies the `JSONRPC.Version`
      and screensaver patches. */
  method ProcessSchema(schema: Value) returns (r: Option<Processed>)
    ensures r == ProcessedSchema(schema)
  {
    var methodsField := Field(schema, "methods");
    var notificationsField := Field(schema, "notifications");
    if methodsField.None? || !methodsField.value.Obj? || notificationsField.None? || !notificationsField.value.Obj? {
      return None;
    }
    var source := methodsField.value.fields;
    var processed: map<string, MethodConfig> := map[];
    var pending := source.Keys;
    while pending != {}
      invariant pending <= source.Keys
      invariant processed.Keys == source.Keys - pending
      invariant forall k :: k in processed ==> ProcessMethod(source[k]) == Some(processed[k])
      decreases pending
    {
      var name :| name in pending;
      var config := source[name];
      var params := Field(config, "params");
      var description := Field(config, "description");
      var returnSchema := Field(config, "returns");
      if params.None? || description.None? || returnSchema.None? {
        assert ProcessMethod(source[name]).None?;
        return None;
      }
      var elements := ParamElements(params.value);
      if elements.None? {
        assert ProcessMethod(source[name]).None?;
        return None;
      }
      var properties := CollectParams(elements.value);
      if properties.None? {
        assert ProcessMethod(source[name]).None?;
        return None;
      }
      processed := processed[name := MethodConfig(description.value, ObjectSchema(properties.value), returnSchema.value)];
      pending := pending - {name};
    }
    assert processed == map k | k in source :: ProcessMethod(source[k]).value;
    if VersionMethod !in processed {
      return None;
    }
    var envelope := VersionEnvelope(processed[VersionMethod].returnSchema);
    if envelope.None? {
      return None;
    }
    processed := processed[VersionMethod := processed[VersionMethod].(returnSchema := envelope.value)];
    var notifications := AliasScreensaver(notificationsField.value.fields);
    if notifications.None? {
      return None;
    }
    r := Some(Processed(processed, notifications.value));
  }
}

=== FILE: xbmcrpc.dfy ===
/** The JSON-RPC client (pythonhtpc/rpcs/xbmcrpc.py): the catalogues filled from the
    processed schema, the `_execute_method` decision chain and the path a pushed
    notification takes. The transport (`self._rpc.request`) and the schema validator
    (`validictory.validate`) are parameters: what a request does and whether a value
    passes a schema are decided outside this model. */
module XbmcRpc {
  import opened Optional
  import opened Json
  import opened Core
  import opened Schema

  /** The type name `EventHandler` looks interests up by. */
  const TypeName: string := "XBMCRPC"

  /** What `self._rpc.request(...)` did: returned a value, or raised. */
  datatype Reply = Replied(value: Value) | Raised

  /** `_execute_method`, given the method configurations and whether `_rpc` holds a
      channel. A method without configuration yields `None` and no request. The
      parameter check is a no-op, so every configured call issues exactly one request
      when the channel is up (without one, `self._rpc.request` raises before sending).
      The result is the transport's reply, and only when the reply passes the method's
      `returns` schema. */
  function ExecuteWithConfig(config: map<string, MethodConfig>, live: bool, methodName: string, params: Value,
                             wait: bool, transport: Request -> Reply, valid: (Value, Value) -> bool): (r: CallResult)
    ensures methodName !in config ==> r == NoCall
    ensures r.sent == if methodName in config && live then [Request(methodName, params, wait)] else []
    ensures r.result.Some? <==>
      && methodName in config && live
      && transport(Request(methodName, params, wait)).Replied?
      && valid(transport(Request(methodName, params, wait)).value, config[methodName].returnSchema)
    ensures r.result.Some? ==> transport(Request(methodName, params, wait)) == Replied(r.result.value)
  {
    if methodName !in config then NoCall
    else if !live then NoCall
    else
      var request := Request(methodName, params, wait);
      match transport(request)
      case Raised => CallResult(None, [request])
      case Replied(answer) =>
        if valid(answer, config[methodName].returnSchema) then CallResult(Some(answer), [request])
        else CallResult(None, [request])
  }

  /** `_process_notification` succeeds: the notification has a configuration object with
      `params`, and the value passes `{'params': <that schema>}`. */
  predicate Processable(config: map<string, Value>, name: string, value: Value, valid: (Value, Value) -> bool) {
    && name in config
    && config[name].Obj?
    && "params" in config[name].fields
    && valid(value, Obj(map["params" := config[name].fields["params"]]))
  }

  /** `XBMCRPC`: an `RpcServer` with the processed method and notification configurations. */
  class XbmcRpc {
    const server: RpcServer
    var methodConfig: map<string, MethodConfig>
    var notificationConfig: map<string, Value>

    /** The method list and the published list name exactly the configured entries. */
    ghost predicate Valid()
      reads this, server, server.notifier
    {
      && server.notifier.Valid()
      && (forall m :: m in server.methods <==> m in methodConfig)
      && (forall n :: n in server.notifier.published <==> n in notificationConfig)
    }

    /** `__init__` after discovery succeeded: every processed method key is appended to
        the method list and every notification key to the published list, once each. */
    constructor (name: string, schema: Processed)
      ensures Valid() && fresh(server) && fresh(server.notifier)
      ensures server.name == name && server.kind == TypeName && !server.live
      ensures methodConfig == schema.methods && notificationConfig == schema.notifications
      ensures |server.methods| == |schema.methods| && |server.notifier.published| == |schema.notifications|
      ensures server.notifier.subscribed == map[]
    {
      server := new RpcServer(name, TypeName);
      methodConfig := schema.methods;
      notificationConfig := schema.notifications;
      new;
      server.methods := AppendKeys(server.methods, schema.methods.Keys);
      server.notifier.published := AppendKeys(server.notifier.published, schema.notifications.Keys);
    }

    /** `execute_method` of this client: the method gate of `RpcServer` in front of
        `_execute_method`. An unknown method issues no request; a known one issues one
        when the channel is up, carrying `{}` for parameters that are missing or `None`. A
        result comes back exactly when the transport replied and the reply passed the
        method's `returns` schema, and it is that reply. */
    function ExecuteMethod(methodName: string, params: Option<Value>, wait: bool,
                           transport: Request -> Reply, valid: (Value, Value) -> bool): (r: CallResult)
      reads this, server, server.notifier
      requires Valid()
      ensures methodName !in methodConfig ==> r == NoCall
      ensures r.sent == if methodName in methodConfig && server.live
                        then [Request(methodName, ParamsOrEmpty(params), wait)] else []
      ensures r.result.Some? <==>
        && methodName in methodConfig && server.live
        && transport(Request(methodName, ParamsOrEmpty(params), wait)).Replied?
        && valid(transport(Request(methodName, ParamsOrEmpty(params), wait)).value, methodConfig[methodName].returnSchema)
      ensures r.result.Some? ==> transport(Request(methodName, ParamsOrEmpty(params), wait)) == Replied(r.result.value)
    {
      var config := methodConfig;
      var live := server.live;
      server.ExecuteMethod(methodName, params, wait,
        (m: string, p: Value, w: bool) => ExecuteWithConfig(config, live, m, p, w, transport, valid))
    }

    /** `notification_callback`: delivers to the subscribers only when the name (a JSON
        string) has subscribers and the value passes its notification schema; every other
        case, including the exceptions the source swallows, delivers nothing. Delivery runs
        on `notify`'s own thread, so a raising call ends it there (`raises(i)`: the `i`-th
        call raises). */
    method NotificationCallback(notification: Value, value: Value, valid: (Value, Value) -> bool,
                                raises: nat -> bool)
      returns (calls: seq<Invocation>)
      ensures var delivered := notification.Str? && notification.s in server.notifier.subscribed
                               && Processable(notificationConfig, notification.s, value, valid);
        && (!delivered ==> calls == [])
        && (delivered ==> DeliversUntilRaise(calls, server.notifier.subscribed[notification.s], server.notifier, value, raises))
    {
      if !notification.Str? || notification.s !in server.notifier.subscribed {
        return [];
      }
      if !Processable(notificationConfig, notification.s, value, valid) {
        return [];
      }
      calls := server.notifier.Notify(notification.s, value, raises);
    }

    /** `Request.dispatch_notification` feeding `notification_callback`: `method` and
        `params` are popped from the pushed message (null when absent) and are the only
        values passed on; the message keeps its other keys. */
    method DispatchNotification(message: map<string, Value>, valid: (Value, Value) -> bool,
                                raises: nat -> bool)
      returns (remaining: map<string, Value>, calls: seq<Invocation>)
      ensures remaining.Keys == message.Keys - {"method", "params"}
      ensures forall k :: k in remaining ==> remaining[k] == message[k]
      ensures var name := PopOrNull(message, "method");
              var params := PopOrNull(message, "params");
              var delivered := name.Str? && name.s in server.notifier.subscribed
                               && Processable(notificationConfig, name.s, params, valid);
        && (!delivered ==> calls == [])
        && (delivered ==> DeliversUntilRaise(calls, server.notifier.subscribed[name.s], server.notifier, params, raises))
    {
      var name := PopOrNull(message, "method");
      remaining := message - {"method"};
      var params := PopOrNull(remaining, "params");
      remaining := remaining - {"params"};
      calls := NotificationCallback(name, params, valid, raises);
    }
  }

  /** One of `__init__`'s loops: appends every key of a configuration to a list, once
      each, in the dictionary's iteration order (left open here). */
  method AppendKeys(list: seq<string>, keys: set<string>) returns (r: seq<string>)
    requires forall x :: x in list ==> x !in keys
    ensures |r| == |list| + |keys| && r[..|list|] == list
    ensures forall x :: x in r <==> x in list || x in keys
  {
    r := list;
    var pending := keys;
    while pending != {}
      invariant pending <= keys && |r| + |pending| == |list| + |keys|
      invariant |list| <= |r| && r[..|list|] == list
      invariant forall x :: x in r <==> x in list || (x in keys && x !in pending)
      decreases pending
    {
      var k :| k in pending;
      r := r + [k];
      pending := pending - {k};
    }
  }

  /** `__init__` with discovery: a schema that cannot be processed raises, and no client
      exists; otherwise the client holds the processed configurations. */
  method Discover(name: string, document: Value) returns (client: Option<XbmcRpc>)
    ensures client.None? <==> ProcessedSchema(document).None?
    ensures client.Some? ==>
      && fresh(client.value) && client.value.Valid()
      && client.value.methodConfig == ProcessedSchema(document).value.methods
      && client.value.notificationConfig == ProcessedSchema(document).value.notifications
  {
    var schema := ProcessSchema(document);
    if schema.None? {
      return None;
    }
    var x := new XbmcRpc(name, schema.value);
    client := Some(x);
  }
}
